=== FILE: README.md ===
# SwitcherView, modelled in Dafny

SwitcherView is an Android widget with two choices, left and right, and a pill-shaped
thumb (the "hover") that the user drags between them. Two classes do the work:

- The **hover canvas** holds a ratio in [0, 1] and a dragging flag. It turns touch input
  into ratio changes. A release or a cancel snaps the ratio to 0 or 1 with an animation.
  The canvas reports touch-down, touch-up, ratio changes and the side the user finished on.
  It also computes the thumb rectangle and colour from the ratio.
- The **switcher** container listens to the canvas. On every ratio change it tints the
  two slots (icon and label). It forwards the other four notifications one-to-one to a
  single selection listener. It also offers `switchToLeftItem` and `switchToRightItem`.

The repository holds two copies of this logic. The `jp.poketo7878` package has the canvas
in its own file. The `jp.pocket7878` file nests the canvas as a private class and renames
the callbacks (`onLeftChoiceSelected`, `switchToLeftChoice`). Their logic is the same line
for line, so one model covers both. The table cites whichever copy states a row's point
most directly.

Modules:

- `Numeric`: Kotlin's conversions written out. `Double.toInt()` truncates toward zero
  (`Trunc`). `Int / Int` also truncates (`KDiv`). `coerceIn(0.0, 1.0)` is `ClampUnit`.
  The snap at one half is `Snap`. Multiplication of reals goes through `Scale`.
- `Colors`: 8-bit channels and the truncated channel interpolation used by both the thumb
  colour and the slot tints.
- `Geometry`: the thumb rectangle and its hit test.
- `Failures`: `IllegalArgumentException` and `IllegalStateException` as values of a
  `Result`.
- `HoverCanvas`: the canvas state machine. Each handler returns the next state and the
  notifications it emits, in order.
- `Gestures`: the touch listener's dispatch, and runs of arbitrary input sequences.
- `Switcher`: the tint calculators, the container's ratio listener, the forwarding, and
  the programmatic switches.

An animated `setRatio` does not change the ratio at once. It appends an animator
`Animation(from, to)` to the canvas. `AnimationFrame(c, i, f)` then plays a frame at
interpolated fraction `f`, with the framework's easing left abstract. The frame applies
`from + f * (to - from)`, as the float evaluator does, and notifies only when the value
differs from the ratio. The frame at `f == 1` ends that animator. A later `setRatio`
does not cancel earlier animators, because the code never cancels them. Several
animators can therefore be live at once, and frames may interleave in any order.

## Model

Paths are relative to the repository root. Files under `jp/poketo7878/` hold the
separate canvas and container; the file under `jp/pocket7878/` holds the nested copy.

| member | source | states |
|---|---|---|
| Numeric.Trunc | switcherview/src/main/java/jp/poketo7878/switcherview/SwitcherHoverCanvasView.kt:77-80 | `toInt()` rounds toward zero: for x >= 0 the result is the floor, for x < 0 the ceiling, and it is never larger in magnitude than x |
| Numeric.KDiv | switcherview/src/main/java/jp/poketo7878/switcherview/SwitcherHoverCanvasView.kt:88-90 | Kotlin's Int division by a positive divisor leaves a remainder with the sign of the dividend |
| Numeric.ClampUnit | switcherview/src/main/java/jp/poketo7878/switcherview/SwitcherHoverCanvasView.kt:207 | `coerceIn(0.0, 1.0)` lands in [0, 1], is the identity there, and maps values below to 0 and above to 1 |
| Numeric.Snap | switcherview/src/main/java/jp/poketo7878/switcherview/SwitcherHoverCanvasView.kt:208-212 | the snapped ratio is 0 or 1, and it is 0 exactly when the input is below one half |
| Numeric.TruncMonotone | switcherview/src/main/java/jp/poketo7878/switcherview/SwitcherHoverCanvasView.kt:90 | truncation preserves order |
| Numeric.ScaleBounds | switcherview/src/main/java/jp/poketo7878/switcherview/SwitcherHoverCanvasView.kt:90 | a fraction in [0, 1] of a distance lies between 0 and the distance, and is exact at both ends |
| Numeric.LerpInUnit | switcherview/src/main/java/jp/poketo7878/switcherview/SwitcherHoverCanvasView.kt:162-168 | interpolating between two ratios in [0, 1] stays in [0, 1] |
| Colors.LerpChannel | switcherview/src/main/java/jp/poketo7878/switcherview/SwitcherView.kt:156-158 | a channel is the exact interpolation `from + (to - from) * t` truncated (the result is within one below it); it lies between its two ends, so it is a valid channel, and equals them at 0 and 1 |
| Colors.LerpBounds | switcherview/src/main/java/jp/poketo7878/switcherview/SwitcherHoverCanvasView.kt:77-80 | the truncated interpolation lies between its two ends and is exact at t = 0 and t = 1 |
| Colors.LerpChannelMonotone | switcherview/src/main/java/jp/poketo7878/switcherview/SwitcherHoverCanvasView.kt:77-80 | as t grows the channel moves monotonically from `from` toward `to`, in either direction |
| Colors.Mix | switcherview/src/main/java/jp/poketo7878/switcherview/SwitcherHoverCanvasView.kt:76-81 | all four ARGB channels lie between the two colours and the result is exactly either colour at 0 and 1 |
| Colors.Opaque | switcherview/src/main/java/jp/poketo7878/switcherview/SwitcherView.kt:155 | `Color.rgb` yields a fully opaque colour that keeps the red, green and blue channels |
| Geometry.Contains | switcherview/src/main/java/jp/poketo7878/switcherview/SwitcherHoverCanvasView.kt:233 | a point is contained only by a non-empty rectangle (half-open containment) |
| Geometry.Dp | switcherview/src/main/java/jp/poketo7878/switcherview/IntExt.kt:5-6 | `n.dp` is density times n truncated: a non-negative pixel count at most density times n and within one below it |
| Geometry.DpHalving | switcherview/src/main/java/jp/poketo7878/switcherview/SwitcherHoverCanvasView.kt:86-88 | at every density, 8dp halved with Int division is exactly 4dp, so the thumb's horizontal margin equals its top inset |
| Geometry.HoverRect | switcherview/src/main/java/jp/poketo7878/switcherview/SwitcherHoverCanvasView.kt:84-92 | the thumb is half the content width less a 4dp margin wide, sits 4dp from the top with height less 8dp, and its left edge is the margin plus the truncation of ratio times (half the content width less the margin), so the margin at ratio 0 and half the content width at ratio 1 |
| Geometry.HoverLeftAtEnds | switcherview/src/main/java/jp/poketo7878/switcherview/SwitcherHoverCanvasView.kt:89-90 | the truncated offset is 0 at ratio 0 and the full thumb width at ratio 1 |
| Geometry.HoverLeftMonotone | switcherview/src/main/java/jp/poketo7878/switcherview/SwitcherHoverCanvasView.kt:89-90 | with a thumb of non-negative width, a larger ratio never moves the thumb left |
| Geometry.HoverLeftAntitone | switcherview/src/main/java/jp/poketo7878/switcherview/SwitcherHoverCanvasView.kt:88-90 | with a view too small for the margins, the thumb width is negative and the thumb moves left as the ratio grows |
| Geometry.HoverRectWithinTrack | switcherview/src/main/java/jp/pocket7878/switcherview/SwitcherView.kt:242-250 | for a ratio in [0, 1] the thumb stays within the content width, inset by the margin at both ends |
| Geometry.InHoverArea | switcherview/src/main/java/jp/poketo7878/switcherview/SwitcherHoverCanvasView.kt:232-234 | a touch can hit the thumb only within its horizontal band, 4dp from the top and height less 8dp tall, whatever the ratio |
| Geometry.HoverAreaEdges | switcherview/src/main/java/jp/poketo7878/switcherview/SwitcherHoverCanvasView.kt:232-234 | for a non-empty thumb its top-left pixel hits, and no point left of the thumb or at or right of its right edge does |
| HoverCanvas.Apply | switcherview/src/main/java/jp/poketo7878/switcherview/SwitcherHoverCanvasView.kt:173-178 | an immediate update sets the ratio, changes nothing else, and notifies exactly when the value is new, with that value |
| HoverCanvas.Animate | switcherview/src/main/java/jp/poketo7878/switcherview/SwitcherHoverCanvasView.kt:161-172 | starting an animator keeps the ratio and drag state, keeps every earlier animator, and appends one from the current ratio to the target |
| HoverCanvas.SetRatio | switcherview/src/main/java/jp/poketo7878/switcherview/SwitcherHoverCanvasView.kt:156-180 | a ratio outside [0, 1] is rejected with IllegalArgument carrying it, and nothing changes; otherwise an immediate call sets the ratio and notifies iff it changed, and an animated call emits nothing and starts an animator; validity is preserved |
| HoverCanvas.AnimationFrame | switcherview/src/main/java/jp/poketo7878/switcherview/SwitcherHoverCanvasView.kt:162-171 | a frame reports the start value at fraction 0 and the target at fraction 1 and a value between the two at every fraction, notifies exactly when the ratio changes, and only the final frame ends the animator, removing exactly that animator and keeping the others in order; validity is preserved |
| HoverCanvas.FrameMonotone | switcherview/src/main/java/jp/poketo7878/switcherview/SwitcherHoverCanvasView.kt:162-168 | as the interpolated fraction grows, the reported value moves monotonically from the start value toward the target, in either direction |
| HoverCanvas.OnDown | switcherview/src/main/java/jp/poketo7878/switcherview/SwitcherHoverCanvasView.kt:182-190 | dragging starts iff the truncated touch point is in the thumb, and a touch-down is emitted iff it does; the ratio is untouched |
| HoverCanvas.ScrollTarget | switcherview/src/main/java/jp/poketo7878/switcherview/SwitcherHoverCanvasView.kt:225-227 | the scroll target is the ratio less 2 * distanceX / width when that lies in [0, 1], 0 when it lies below and 1 when above; so it moves right for a rightward drag and left for a leftward one |
| HoverCanvas.OnScroll | switcherview/src/main/java/jp/poketo7878/switcherview/SwitcherHoverCanvasView.kt:224-230 | without a drag nothing happens; with one the ratio becomes the clamped scroll target, follows the finger's direction, stays in [0, 1], and is notified iff it changed |
| HoverCanvas.ScrollMovesExactly | switcherview/src/main/java/jp/poketo7878/switcherview/SwitcherHoverCanvasView.kt:224-230 | inside the track a dragging scroll moves the ratio by exactly -2 * distanceX / width |
| HoverCanvas.ScrollsCompose | switcherview/src/main/java/jp/poketo7878/switcherview/SwitcherHoverCanvasView.kt:224-230 | two scroll steps that stay inside the track end where one step over both distances ends |
| HoverCanvas.ReleaseTarget | switcherview/src/main/java/jp/poketo7878/switcherview/SwitcherHoverCanvasView.kt:207-212 | a release snaps to 0 or 1, and to 0 exactly when it is left of the view's middle |
| HoverCanvas.OnUp | switcherview/src/main/java/jp/poketo7878/switcherview/SwitcherHoverCanvasView.kt:206-222 | a release animates to the snapped end and ends any drag; it emits touch-up first iff a drag was active, then exactly one finish event naming the end, and no other finish |
| HoverCanvas.OnCancel | switcherview/src/main/java/jp/poketo7878/switcherview/SwitcherHoverCanvasView.kt:192-204 | a cancel animates to the nearer end (one half goes right), ends any drag, emits only touch-up and only if a drag was active, and never a finish event |
| HoverCanvas.HoverColor | switcherview/src/main/java/jp/poketo7878/switcherview/SwitcherHoverCanvasView.kt:72-82 | the thumb colour lies channel-wise between the two end colours and equals them at ratios 0 and 1 |
| HoverCanvas.SetRatioTwiceEmitsOnce | switcherview/src/main/java/jp/poketo7878/switcherview/SwitcherHoverCanvasView.kt:174-178 | repeating an immediate setRatio is a no-op, so the pair notifies once if the value was new and never otherwise |
| HoverCanvas.ScrollNeverRejected | switcherview/src/main/java/jp/poketo7878/switcherview/SwitcherHoverCanvasView.kt:224-230 | the setRatio call a scroll makes never throws |
| HoverCanvas.ScrollHalfWay | switcherview/src/main/java/jp/poketo7878/switcherview/SwitcherHoverCanvasView.kt:226-227 | dragging 50 pixels right on a 200-pixel view from ratio 0 gives ratio one half |
| HoverCanvas.OnUpIgnoresState | switcherview/src/main/java/jp/poketo7878/switcherview/SwitcherHoverCanvasView.kt:207-212 | where a release snaps to depends only on the release point, not on the ratio or drag state |
| HoverCanvas.CancelSnaps | switcherview/src/main/java/jp/poketo7878/switcherview/SwitcherHoverCanvasView.kt:193-199 | a cancel at 0.3 ends at 0 and one at 0.7 ends at 1 once its animator finishes |
| HoverCanvas.HoverColorMidpoint | switcherview/src/main/java/jp/poketo7878/switcherview/SwitcherHoverCanvasView.kt:70-82 | the default blue-to-red thumb at one half is ARGB (255, 127, 0, 127) after truncation |
| Gestures.Handle | switcherview/src/main/java/jp/poketo7878/switcherview/SwitcherHoverCanvasView.kt:141-154 | every input keeps the canvas valid with in-range notifications; up and cancel always end the drag; a scroll never starts or ends one |
| Gestures.Run | switcherview/src/main/java/jp/poketo7878/switcherview/SwitcherHoverCanvasView.kt:141-154 | any input sequence keeps the canvas valid and reports only ratios in [0, 1]; a sequence ending in up or cancel leaves nothing dragging |
| Gestures.HandleBalanced | switcherview/src/main/java/jp/poketo7878/switcherview/SwitcherHoverCanvasView.kt:182-222 | no single input emits a touch-up it does not owe to a drag that was open or that it opened |
| Gestures.RunBalanced | switcherview/src/main/java/jp/poketo7878/switcherview/SwitcherHoverCanvasView.kt:182-222 | over any input sequence, touch-ups plus a drag left open never exceed touch-downs plus a drag open at the start |
| Gestures.TouchUpsNeverExceedDowns | switcherview/src/main/java/jp/poketo7878/switcherview/SwitcherHoverCanvasView.kt:182-222 | from a canvas that is not dragging, the listener never hears more touch-ups than touch-downs |
| Gestures.HandleFinishes | switcherview/src/main/java/jp/poketo7878/switcherview/SwitcherHoverCanvasView.kt:206-222 | a release emits exactly one finish event and every other input emits none |
| Gestures.FinishesMatchReleases | switcherview/src/main/java/jp/poketo7878/switcherview/SwitcherHoverCanvasView.kt:218-221 | over any input sequence the finish events equal the number of releases |
| Switcher.TintColorOfEnableRatio | switcherview/src/main/java/jp/poketo7878/switcherview/SwitcherView.kt:152-160 | out-of-range enable ratios throw IllegalArgument; otherwise the tint is opaque, each RGB channel lies between the two tints, and it is the enabled tint at 1 and the disabled tint at 0 |
| Switcher.LeftItemTintColor | switcherview/src/main/java/jp/poketo7878/switcherview/SwitcherView.kt:140-144 | out-of-range ratios throw IllegalArgument; the left slot has the enabled tint at ratio 0 and the disabled one at 1 |
| Switcher.RightItemTintColor | switcherview/src/main/java/jp/poketo7878/switcherview/SwitcherView.kt:146-150 | out-of-range ratios throw IllegalArgument; the right slot has the disabled tint at ratio 0 and the enabled one at 1 |
| Switcher.TintsInterpolate | switcherview/src/main/java/jp/pocket7878/switcherview/SwitcherView.kt:147-167 | the left tint is the channel interpolation from the enabled to the disabled tint by the ratio, the right tint the same by one minus the ratio |
| Switcher.TintsMirror | switcherview/src/main/java/jp/pocket7878/switcherview/SwitcherView.kt:147-157 | the left tint at r equals the right tint at 1 - r, and neither throws in range |
| Switcher.OnRatioChanged | switcherview/src/main/java/jp/poketo7878/switcherview/SwitcherView.kt:78-83 | an out-of-range ratio throws IllegalState before any recolouring; otherwise both slots take the left and right tints of that ratio |
| Switcher.InitialTints | switcherview/src/main/java/jp/poketo7878/switcherview/SwitcherView.kt:56-60 | at construction the left slot shows the enabled tint and the right slot the disabled tint |
| Switcher.InitialTintsAgree | switcherview/src/main/java/jp/poketo7878/switcherview/SwitcherView.kt:56-60 | a fresh canvas is valid, and the colouring at construction is what the ratio listener computes for the canvas's initial ratio 0 |
| Switcher.DefaultInitialTints | switcherview/src/main/java/jp/poketo7878/switcherview/SwitcherView.kt:45-46 | with the default tints the left slot starts white and the right slot black |
| Switcher.Source | switcherview/src/main/java/jp/poketo7878/switcherview/SwitcherView.kt:86-106 | each listener callback answers one canvas notification that is not a ratio change |
| Switcher.Dispatch | switcherview/src/main/java/jp/poketo7878/switcherview/SwitcherView.kt:76-106 | only a ratio outside [0, 1] is rejected (IllegalState); a ratio change recolours; each other notification reaches exactly the callback that answers it |
| Switcher.ForwardingOneToOne | switcherview/src/main/java/jp/pocket7878/switcherview/SwitcherView.kt:89-109 | every callback is reached from its own notification, and two notifications reaching the same callback are the same |
| Switcher.Listen | switcherview/src/main/java/jp/poketo7878/switcherview/SwitcherView.kt:76-107 | a list of notifications is handled without a throw iff every reported ratio is in range, one reaction per notification in order |
| Switcher.CanvasTracesAccepted | switcherview/src/main/java/jp/poketo7878/switcherview/SwitcherView.kt:79 | no touch input on a valid canvas ever makes the container's range check throw |
| Switcher.SwitchToLeftItem | switcherview/src/main/java/jp/poketo7878/switcherview/SwitcherView.kt:110-112 | switching left never throws, emits nothing at once, and starts an animator toward 0 from the current ratio |
| Switcher.SwitchToRightItem | switcherview/src/main/java/jp/poketo7878/switcherview/SwitcherView.kt:114-116 | switching right never throws, emits nothing at once, and starts an animator toward 1 from the current ratio |
| Switcher.SwitchLeftThenRight | switcherview/src/main/java/jp/pocket7878/switcherview/SwitcherView.kt:117-123 | after switching left then right, the newest animator targets 1 and its final frame leaves the ratio at exactly 1 |

## Left out

- Drawing is not modelled. That covers `onDraw`, `drawTube`, the paints, the background rectangle, measurement and view inflation.
- The framework's touch plumbing is not modelled. `MotionEvent` becomes `Gestures.Input`. The `GestureDetector`'s own choice of when to call `onDown` and `onScroll` is not modelled. Taps, flings and long presses do nothing in the code, so they are not inputs.
- Animator timing is left out: the 200 ms duration, the easing curve and frame scheduling. Each frame is an explicit `AnimationFrame` call with its interpolated fraction as a parameter.
- HoverCanvas.HoverColor requires the ratio to be in [0, 1], which every valid canvas satisfies. Outside that range `Color.argb` would pack out-of-range channels, and that is not modelled.
- HoverCanvas.AnimationFrame requires the interpolated fraction to be in [0, 1]. The framework's default interpolator stays in that range. It also uses exact reals: the animator's `toFloat()` rounding of the start and end values is not modelled, and neither is the float-to-double comparison that follows it. Ratios 0 and 1 are exact in both types.
- All Kotlin `Double` arithmetic is modelled with exact reals. Floating-point rounding in the ratio arithmetic, the scroll step, the release division and the colour interpolation is not modelled. A truncated channel can therefore differ by one from the program's wherever rounding crosses an integer.
- Switcher.TintsInterpolate: the left half holds exactly only in reals. The program computes `1.0 - (1.0 - ratio)`, which in Double is not always `ratio`. For example, at 0.1 it is 0.09999999999999998. With an enabled red of 0 and a disabled red of 10, the program gets red 0 where the lemma says 1.
- HoverCanvas.SetRatio: NaN is not modelled, because the model's `real` cannot represent it. The program's range checks, in the canvas's `setRatio` and in the container's listener and tint functions, are written as `r < 0.0 || r > 1.0`, and both comparisons are false for NaN. So `setRatio(Double.NaN)` does not throw. The canvas stores and reports NaN, the container's check lets it through, and both slots are tinted black (`NaN.toInt()` is 0). The model's "every ratio outside [0, 1] is rejected" holds for every ratio except NaN.
- Numeric.Trunc: Kotlin's saturation of `toInt()` at the 32-bit range is not modelled. Neither are NaN and the infinities, which the model's `real` cannot hold.
- Geometry.HoverRect: pixel sizes are unbounded integers, so 32-bit overflow is not modelled.
- Geometry.Layout: 4dp and 8dp are independent parameters, and so are the view's width, height and padding. The program derives 4dp and 8dp from one display density (`IntExt.kt`), and `Geometry.DpHalving` proves that 8dp / 2 == 4dp there. The other geometry lemmas do not assume that relation, so they hold for a more general layout than the program can produce.
- HoverCanvas.OnUp and HoverCanvas.OnScroll require a positive view width. The code divides by the width and would produce NaN or an infinity at width 0, which the model does not represent.
- The hit test calls the androidx.core.graphics extension `Rect.contains(Point)` (imported at line 10 of the canvas file). It delegates to the framework's `Rect.contains(x, y)`. Neither is part of this model. Containment is taken as half-open, as the framework documents: left and top inclusive, right and bottom exclusive, and an empty rectangle contains nothing.
- A listener that was never set is not modelled: with `?.` a missing listener makes the call a no-op. The model emits each notification as if a listener were present. The container sets all three canvas listeners when attached, and its selection listener is assumed set.
- Only the choice of tint is modelled. Applying it to the icon and the label (`setImageTintList`, `setTextColor`) is not. `updateLeftIconTextColor` and `updateRightIconTextColor` repeat the range check and then apply `leftItemTintColor` and `rightItemTintColor`, so `LeftItemTintColor` and `RightItemTintColor` model them. Their IllegalArgument can never fire after `OnRatioChanged`'s own check.
- Colours are four channels, not a packed 32-bit `Int`. The tint and colour attributes from XML styling become `TintConfig` and `HoverColors` parameters. The defaults are white, black, blue and red.
- Animator cancellation is not modelled, because the code never cancels. One might expect the last `setRatio` to win, but an animated `setRatio` leaves every earlier animator running. The model follows the code, so a later immediate `setRatio` can be overwritten by a still-running animator's frames.
- The thumb's rectangle ignores the view's padding. `hoverLeft` never adds `paddingLeft`, while the background tube starts at `paddingLeft`. Any non-zero left padding therefore shifts the thumb left of the tube by that amount. For example, take width 200, padding 10 on each side and 8dp = 8. The tube spans [10, 190), but the thumb spans [4, 90) at ratio 0 and [90, 176) at ratio 1. `hoverTop` and `hoverHeight` ignore the vertical padding in the same way. The model follows the code: `HoverRect` and the hit test use these unshifted coordinates, and nothing is stated about drawing.

=== FILE: colors.dfy ===
/** Colours as four 8-bit channels, and the per-channel linear interpolation
    used both for the thumb colour and for the slot tints. */
module Colors {
  import opened Numeric

  /** One 8-bit colour channel. */
  type Channel = c: int | 0 <= c <= 255

  /** An ARGB colour; packing into a 32-bit Int is not modelled. */
  datatype Argb = Argb(alpha: Channel, red: Channel, green: Channel, blue: Channel)

  predicate Between(c: int, a: int, b: int) {
    (a <= c <= b) || (b <= c <= a)
  }

  /** The exact interpolated value `from + (to - from) * t` before truncation. */
  function LerpValue(from: int, to: int, t: real): real {
    from as real + Scale(t, (to - from) as real)
  }

  /** `(from + (to - from) * t).toInt()` for `t` in [0, 1]: the value lies between
      the two end channels, so it is again a channel, and the ends are exact. */
  function LerpChannel(from: Channel, to: Channel, t: real): (c: Channel)
    requires InUnit(t)
    ensures Between(c, from, to)
    ensures t == 0.0 ==> c == from
    ensures t == 1.0 ==> c == to
    ensures c as real <= LerpValue(from, to, t) < c as real + 1.0
  {
    LerpBounds(from, to, t);
    ScaleBounds(t, (to - from) as real);
    Trunc(LerpValue(from, to, t))
  }

  /** The truncated interpolation stays between the two ends and is exact there. */
  lemma LerpBounds(from: int, to: int, t: real)
    requires InUnit(t)
    ensures Between(Trunc(LerpValue(from, to, t)), from, to)
    ensures t == 0.0 ==> Trunc(LerpValue(from, to, t)) == from
    ensures t == 1.0 ==> Trunc(LerpValue(from, to, t)) == to
  {
    var x := LerpValue(from, to, t);
    ScaleBounds(t, (to - from) as real);
    var lo, hi := if from <= to then from else to, if from <= to then to else from;
    assert lo as real <= x <= hi as real;
    TruncMonotone(lo as real, x);
    TruncMonotone(x, hi as real);
    TruncOfInt(lo);
    TruncOfInt(hi);
    if t == 0.0 {
      assert x == from as real;
      TruncOfInt(from);
    }
    if t == 1.0 {
      assert x == to as real;
      TruncOfInt(to);
    }
  }

  /** The exact value moves toward `to` as `t` grows. */
  lemma LerpValueMonotone(from: int, to: int, s: real, t: real)
    requires s <= t
    ensures from <= to ==> LerpValue(from, to, s) <= LerpValue(from, to, t)
    ensures to <= from ==> LerpValue(from, to, t) <= LerpValue(from, to, s)
  {
    ScaleMonotone(s, t, (to - from) as real);
  }

  /** Moving `t` toward the far end never moves the channel back toward `from`. */
  lemma LerpChannelMonotone(from: Channel, to: Channel, s: real, t: real)
    requires InUnit(s) && InUnit(t) && s <= t
    ensures from <= to ==> LerpChannel(from, to, s) <= LerpChannel(from, to, t)
    ensures to <= from ==> LerpChannel(from, to, t) <= LerpChannel(from, to, s)
  {
    LerpValueMonotone(from, to, s, t);
    if from <= to {
      TruncMonotone(LerpValue(from, to, s), LerpValue(from, to, t));
    }
    if to <= from {
      TruncMonotone(LerpValue(from, to, t), LerpValue(from, to, s));
    }
  }

  /** Every channel, alpha included, interpolated at the same parameter. */
  function Mix(from: Argb, to: Argb, t: real): (c: Argb)
    requires InUnit(t)
    ensures Between(c.alpha, from.alpha, to.alpha) && Between(c.red, from.red, to.red)
    ensures Between(c.green, from.green, to.green) && Between(c.blue, from.blue, to.blue)
    ensures t == 0.0 ==> c == from
    ensures t == 1.0 ==> c == to
  {
    Argb(LerpChannel(from.alpha, to.alpha, t), LerpChannel(from.red, to.red, t),
         LerpChannel(from.green, to.green, t), LerpChannel(from.blue, to.blue, t))
  }

  /** `Color.rgb`: the three colour channels with a fully opaque alpha. */
  function Opaque(c: Argb): (o: Argb)
    ensures o.alpha == 255
    ensures o.red == c.red && o.green == c.green && o.blue == c.blue
  {
    c.(alpha := 255)
  }
}

=== FILE: failures.dfy ===
/** The exceptions the switcher throws, as values. */
module Failures {

  /** `IllegalArgumentException` and `IllegalStateException`, each carrying the
      offending ratio. */
  datatype Failure = IllegalArgument(value: real) | IllegalState(value: real)

  datatype Result<+T> = Ok(value: T) | Err(failure: Failure)
}

=== FILE: geometry.dfy ===
/** Integer rectangle arithmetic of the thumb ("hover") and its hit test. */
module Geometry {
  import opened Numeric

  /** An integer rectangle: `left`/`top` inclusive, `right`/`bottom` exclusive. */
  datatype Rect = Rect(left: int, top: int, right: int, bottom: int)

  /** Axis-aligned, half-open containment of an integer point; an empty
      rectangle contains nothing. */
  predicate Contains(rect: Rect, x: int, y: int)
    ensures Contains(rect, x, y) ==> rect.left < rect.right && rect.top < rect.bottom
  {
    rect.left <= x < rect.right && rect.top <= y < rect.bottom
  }

  /** What the hosting layout supplies: the view size, its horizontal padding,
      and the pixel values of 4dp and 8dp for the display's density. */
  datatype Layout = Layout(width: int, height: int, paddingLeft: int, paddingRight: int,
                           fourDp: nat, eightDp: nat)

  /** The width left for content once both horizontal paddings are taken off. */
  function ContentWidth(l: Layout): int {
    l.width - l.paddingLeft - l.paddingRight
  }

  /** Kotlin's `Int.dp` for a display density `density`: the density times `n`,
      truncated. */
  function Dp(density: real, n: nat): (px: int)
    requires density >= 0.0
    ensures 0 <= px && px as real <= density * n as real < px as real + 1.0
  {
    Trunc(density * n as real)
  }

  /** Half of 8dp is 4dp at every density, so the thumb's margin is 4dp. */
  lemma DpHalving(density: real)
    requires density >= 0.0
    ensures KDiv(Dp(density, 8), 2) == Dp(density, 4)
  {
    var n := Dp(density, 8);
    var m := KDiv(n, 2);
    assert n as real <= 8.0 * density < n as real + 1.0;
    assert 2 * m <= n < 2 * m + 2;
    assert m as real <= 4.0 * density < m as real + 1.0;
    var k := Dp(density, 4);
    assert k as real <= 4.0 * density < k as real + 1.0;
  }

  /** The inset of the thumb from the ends of the track: half of 8dp, whatever the height. */
  function Margin(l: Layout): int {
    KDiv(l.eightDp, 2)
  }

  /** Half the content width, rounded as Kotlin's `Int` division does. */
  function HalfContent(l: Layout): int {
    KDiv(ContentWidth(l), 2)
  }

  /** The thumb rectangle at a given ratio. Its width and vertical extent do not
      depend on the ratio; its left edge runs from the margin at ratio 0 to half
      the content width at ratio 1. */
  function HoverRect(l: Layout, ratio: real): (r: Rect)
    ensures r.right - r.left == HalfContent(l) - Margin(l)
    ensures r.top == l.fourDp && r.bottom - r.top == l.height - l.eightDp
    ensures ratio == 0.0 ==> r.left == Margin(l)
    ensures ratio == 1.0 ==> r.left == HalfContent(l)
    ensures InUnit(ratio) && HalfContent(l) >= Margin(l) ==>
      (r.left - Margin(l)) as real <= Scale(ratio, (HalfContent(l) - Margin(l)) as real) < (r.left - Margin(l)) as real + 1.0
  {
    var hoverHeight := l.height - l.eightDp;
    var hoverTop := l.fourDp;
    var inset := KDiv(l.height - hoverHeight, 2);
    var hoverWidth := KDiv(ContentWidth(l), 2) - inset;
    var hoverLeft := Trunc(Scale(ratio, hoverWidth as real)) + inset;
    HoverLeftAtEnds(hoverWidth, ratio);
    assert InUnit(ratio) && hoverWidth >= 0 ==> Scale(ratio, hoverWidth as real) >= 0.0 by {
      if InUnit(ratio) {
        ScaleBounds(ratio, hoverWidth as real);
      }
    }
    Rect(hoverLeft, hoverTop, hoverLeft + hoverWidth, hoverTop + hoverHeight)
  }

  /** The hit test used on a touch-down: the point lies inside the thumb. Only
      a point in the thumb's horizontal band can hit, whatever the ratio. */
  predicate InHoverArea(l: Layout, ratio: real, x: int, y: int)
    ensures InHoverArea(l, ratio, x, y) ==> l.fourDp <= y < l.fourDp + l.height - l.eightDp
  {
    Contains(HoverRect(l, ratio), x, y)
  }

  /** For a non-empty thumb, its top-left pixel hits and nothing left of it, right
      of it, above or below it does. */
  lemma HoverAreaEdges(l: Layout, ratio: real, x: int, y: int)
    requires HalfContent(l) > Margin(l) && l.height > l.eightDp
    ensures InHoverArea(l, ratio, HoverRect(l, ratio).left, l.fourDp)
    ensures x < HoverRect(l, ratio).left ==> !InHoverArea(l, ratio, x, y)
    ensures x >= HoverRect(l, ratio).left + HalfContent(l) - Margin(l) ==> !InHoverArea(l, ratio, x, y)
  {
  }

  lemma HoverLeftAtEnds(w: int, ratio: real)
    ensures ratio == 0.0 ==> Trunc(Scale(ratio, w as real)) == 0
    ensures ratio == 1.0 ==> Trunc(Scale(ratio, w as real)) == w
  {
    if ratio == 0.0 || ratio == 1.0 {
      ScaleBounds(ratio, w as real);
      TruncOfInt(0);
      TruncOfInt(w);
    }
  }

  /** With a thumb of non-negative width, a larger ratio never moves it left. */
  lemma HoverLeftMonotone(l: Layout, r1: real, r2: real)
    requires HalfContent(l) >= Margin(l)
    requires r1 <= r2
    ensures HoverRect(l, r1).left <= HoverRect(l, r2).left
  {
    var w := (HalfContent(l) - Margin(l)) as real;
    ScaleMonotone(r1, r2, w);
    TruncMonotone(Scale(r1, w), Scale(r2, w));
  }

  /** With a degenerate (negative-width) thumb the direction reverses. */
  lemma HoverLeftAntitone(l: Layout, r1: real, r2: real)
    requires HalfContent(l) < Margin(l)
    requires r1 <= r2
    ensures HoverRect(l, r2).left <= HoverRect(l, r1).left
  {
    var w := (HalfContent(l) - Margin(l)) as real;
    ScaleMonotone(r1, r2, w);
    TruncMonotone(Scale(r2, w), Scale(r1, w));
  }

  /** For a ratio in [0, 1] the thumb stays inside the content width, inset by
      the margin at both ends. */
  lemma HoverRectWithinTrack(l: Layout, ratio: real)
    requires InUnit(ratio)
    requires HalfContent(l) >= Margin(l) && ContentWidth(l) >= 0
    ensures Margin(l) <= HoverRect(l, ratio).left
    ensures HoverRect(l, ratio).right <= ContentWidth(l) - Margin(l)
  {
    HoverLeftMonotone(l, 0.0, ratio);
    HoverLeftMonotone(l, ratio, 1.0);
  }
}

=== FILE: gestures.dfy ===
/** Sequences of touch input fed to the hover canvas, and what any such sequence
    guarantees about the canvas state and the notifications it emits. */
module Gestures {
  import opened Geometry
  import opened HoverCanvas

  /** One touch input as the touch listener and the gesture detector deliver it:
      a down, a scroll step, a release, or a cancel. */
  datatype Input = Down(x: real, y: real) | Scroll(distanceX: real) | Up(x: real) | Cancel

  /** The touch listener's dispatch: up and cancel go to their handlers, the rest
      through the gesture detector to the down and scroll handlers. */
  function Handle(c: Canvas, l: Layout, input: Input): (s: Step)
    requires l.width > 0
    ensures Valid(c) ==> Valid(s.canvas) && EventsInRange(s.events)
    ensures (input.Up? || input.Cancel?) ==> !s.canvas.dragging
    ensures input.Scroll? ==> s.canvas.dragging == c.dragging
    ensures |s.events| <= 2
  {
    match input
    case Down(x, y) => OnDown(c, l, x, y)
    case Scroll(dx) => OnScroll(c, l, dx)
    case Up(x) => OnUp(c, l, x)
    case Cancel => OnCancel(c)
  }

  /** Feeds the inputs in order; the notifications are concatenated in order.
      From a valid state the state stays valid and every reported ratio is in
      [0, 1]; a sequence that ends in a release or a cancel leaves nothing dragging. */
  function Run(c: Canvas, l: Layout, inputs: seq<Input>): (s: Step)
    requires l.width > 0
    ensures Valid(c) ==> Valid(s.canvas) && EventsInRange(s.events)
    ensures |inputs| > 0 && (inputs[|inputs| - 1].Up? || inputs[|inputs| - 1].Cancel?) ==>
      !s.canvas.dragging
    decreases |inputs|
  {
    if |inputs| == 0 then
      Step(c, [])
    else
      var first := Handle(c, l, inputs[0]);
      var rest := Run(first.canvas, l, inputs[1..]);
      EventsInRangeAppend(first.events, rest.events);
      Step(rest.canvas, first.events + rest.events)
  }

  /** How many times the listener hears `e` among `events`. */
  function Count(events: seq<Event>, e: Event): nat {
    if |events| == 0 then 0 else (if events[0] == e then 1 else 0) + Count(events[1..], e)
  }

  /** Counting distributes over concatenation, for every kind of notification. */
  lemma {:induction false} CountAppend(a: seq<Event>, b: seq<Event>)
    ensures forall e :: Count(a + b, e) == Count(a, e) + Count(b, e)
    decreases |a|
  {
    forall e
      ensures Count(a + b, e) == Count(a, e) + Count(b, e)
    {
      if |a| > 0 {
        CountAppend(a[1..], b);
        assert (a + b)[0] == a[0];
        assert (a + b)[1..] == a[1..] + b;
      } else {
        assert a + b == b;
      }
    }
  }

  /** Counting in the lists of at most two notifications a single handler emits. */
  lemma CountShort(events: seq<Event>, e: Event)
    requires |events| <= 2
    ensures |events| == 0 ==> Count(events, e) == 0
    ensures |events| >= 1 ==>
      Count(events, e) == (if events[0] == e then 1 else 0) + (if |events| == 2 && events[1] == e then 1 else 0)
  {
    if |events| == 2 {
      assert events[1..][0] == events[1];
      assert |events[1..][1..]| == 0;
    }
  }

  /** How many of the inputs are releases. */
  function Releases(inputs: seq<Input>): nat {
    if |inputs| == 0 then 0
    else (if inputs[0].Up? then 1 else 0) + Releases(inputs[1..])
  }

  /** A single handler never emits a touch-up it did not owe: the touch-ups it
      emits plus whether it leaves a drag open never exceed the touch-downs it
      emits plus whether a drag was open before. */
  lemma HandleBalanced(c: Canvas, l: Layout, input: Input)
    requires l.width > 0
    ensures var s := Handle(c, l, input);
      Count(s.events, TouchUp) + (if s.canvas.dragging then 1 else 0) <=
      Count(s.events, TouchDown) + (if c.dragging then 1 else 0)
  {
    var s := Handle(c, l, input);
    CountShort(s.events, TouchUp);
    CountShort(s.events, TouchDown);
  }

  /** Over any input sequence touch-ups and touch-downs balance: every drag-end
      notification answers an earlier drag-start (or the drag already open). */
  lemma {:induction false} RunBalanced(c: Canvas, l: Layout, inputs: seq<Input>)
    requires l.width > 0
    ensures var s := Run(c, l, inputs);
      Count(s.events, TouchUp) + (if s.canvas.dragging then 1 else 0) <=
      Count(s.events, TouchDown) + (if c.dragging then 1 else 0)
    decreases |inputs|
  {
    if |inputs| > 0 {
      var first := Handle(c, l, inputs[0]);
      HandleBalanced(c, l, inputs[0]);
      RunBalanced(first.canvas, l, inputs[1..]);
      var rest := Run(first.canvas, l, inputs[1..]);
      assert Run(c, l, inputs).events == first.events + rest.events;
      CountAppend(first.events, rest.events);
    }
  }

  /** From a canvas that is not dragging, the listener never hears more touch-ups
      than touch-downs. */
  lemma TouchUpsNeverExceedDowns(c: Canvas, l: Layout, inputs: seq<Input>)
    requires l.width > 0 && !c.dragging
    ensures var s := Run(c, l, inputs);
      Count(s.events, TouchUp) <= Count(s.events, TouchDown)
  {
    RunBalanced(c, l, inputs);
  }

  /** Each release emits exactly one finish event and nothing else does. */
  lemma {:induction false} FinishesMatchReleases(c: Canvas, l: Layout, inputs: seq<Input>)
    requires l.width > 0
    ensures var s := Run(c, l, inputs);
      Count(s.events, FinishLeft) + Count(s.events, FinishRight) == Releases(inputs)
    decreases |inputs|
  {
    if |inputs| > 0 {
      var first := Handle(c, l, inputs[0]);
      FinishesMatchReleases(first.canvas, l, inputs[1..]);
      var rest := Run(first.canvas, l, inputs[1..]);
      assert Run(c, l, inputs).events == first.events + rest.events;
      CountAppend(first.events, rest.events);
      HandleFinishes(c, l, inputs[0]);
    }
  }

  /** A release emits one finish event; the other inputs emit none. */
  lemma HandleFinishes(c: Canvas, l: Layout, input: Input)
    requires l.width > 0
    ensures var s := Handle(c, l, input);
      Count(s.events, FinishLeft) + Count(s.events, FinishRight) == (if input.Up? then 1 else 0)
  {
    var s := Handle(c, l, input);
    CountShort(s.events, FinishLeft);
    CountShort(s.events, FinishRight);
  }
}

=== FILE: hover_canvas.dfy ===
/** The hover canvas: the track with a draggable thumb. Its state is the ratio
    and whether the thumb is being dragged; each handler returns the next state
    together with the notifications it emits, in order. */
module HoverCanvas {
  import opened Numeric
  import opened Colors
  import opened Geometry
  import opened Failures

  /** The canvas's notifications: `onRatioChanged`, `onHoverTouchDown`,
      `onHoverTouchUp`, `onControlFinishAtLeft`, `onControlFinishAtRight`. */
  datatype Event = RatioChanged(ratio: real) | TouchDown | TouchUp | FinishLeft | FinishRight

  /** An animator started by an animated `setRatio`, interpolating from the
      ratio at the time of the call to the requested target. */
  datatype Animation = Animation(from: real, to: real)

  /** The canvas state. Animators are never cancelled by a later `setRatio`:
      each one stays in `animations` until its final frame. */
  datatype Canvas = Canvas(ratio: real, dragging: bool, animations: seq<Animation>)

  /** The state after a handler and the notifications it emitted. */
  datatype Step = Step(canvas: Canvas, events: seq<Event>)

  /** The thumb's colours at the two ends of the track. */
  datatype HoverColors = HoverColors(leftMost: Argb, rightMost: Argb)

  /** `Color.BLUE` and `Color.RED`, the defaults of the two end colours. */
  const DefaultHoverColors: HoverColors :=
    HoverColors(Argb(255, 0, 0, 255), Argb(255, 255, 0, 0))

  /** A fresh canvas: ratio 0, not dragging, nothing animating. */
  const Initial: Canvas := Canvas(0.0, false, [])

  /** The state invariant: the ratio and every animator's ends lie in [0, 1]. */
  predicate Valid(c: Canvas) {
    InUnit(c.ratio) &&
    forall i :: 0 <= i < |c.animations| ==> InUnit(c.animations[i].from) && InUnit(c.animations[i].to)
  }

  /** Every ratio the events report lies in [0, 1]. */
  predicate EventsInRange(events: seq<Event>) {
    forall i :: 0 <= i < |events| && events[i].RatioChanged? ==> InUnit(events[i].ratio)
  }

  /** Range-checked event lists stay range-checked when concatenated. */
  lemma EventsInRangeAppend(a: seq<Event>, b: seq<Event>)
    ensures EventsInRange(a) && EventsInRange(b) ==> EventsInRange(a + b)
  {
    if EventsInRange(a) && EventsInRange(b) {
      forall i | 0 <= i < |a + b| && (a + b)[i].RatioChanged?
        ensures InUnit((a + b)[i].ratio)
      {
        if i >= |a| {
          assert (a + b)[i] == b[i - |a|];
        }
      }
    }
  }

  predicate IsFinish(e: Event) {
    e.FinishLeft? || e.FinishRight?
  }

  /** Moves the ratio to `v`, emitting a change notification only when `v` differs
      from the current ratio. Shared by the immediate `setRatio` and animator frames. */
  function Apply(c: Canvas, v: real): (s: Step)
    ensures s.canvas.ratio == v
    ensures s.canvas.dragging == c.dragging && s.canvas.animations == c.animations
    ensures s.events == [] <==> v == c.ratio
    ensures s.events != [] ==> s.events == [RatioChanged(v)]
  {
    if v != c.ratio then Step(c.(ratio := v), [RatioChanged(v)]) else Step(c, [])
  }

  /** The animated half of `setRatio`: starts an animator toward `target` and
      changes nothing else yet. */
  function Animate(c: Canvas, target: real): (c': Canvas)
    ensures c'.ratio == c.ratio && c'.dragging == c.dragging
    ensures |c'.animations| == |c.animations| + 1
    ensures c'.animations[..|c.animations|] == c.animations
    ensures c'.animations[|c.animations|] == Animation(c.ratio, target)
  {
    c.(animations := c.animations + [Animation(c.ratio, target)])
  }

  /** `setRatio(newRatio, animate)`: rejects a ratio outside [0, 1] before touching
      anything; otherwise either applies it at once or starts an animator. */
  function SetRatio(c: Canvas, newRatio: real, animate: bool): (res: Result<Step>)
    ensures res.Err? <==> !InUnit(newRatio)
    ensures res.Err? ==> res.failure == IllegalArgument(newRatio)
    ensures res.Ok? ==> res.value.canvas.dragging == c.dragging
    ensures res.Ok? && !animate ==>
      res.value.canvas.ratio == newRatio && res.value.canvas.animations == c.animations
    ensures res.Ok? && !animate ==> (res.value.events == [] <==> newRatio == c.ratio)
    ensures res.Ok? && !animate && newRatio != c.ratio ==> res.value.events == [RatioChanged(newRatio)]
    ensures res.Ok? && animate ==>
      res.value.events == [] && res.value.canvas == Animate(c, newRatio)
    ensures res.Ok? && Valid(c) ==> Valid(res.value.canvas) && EventsInRange(res.value.events)
  {
    if newRatio < 0.0 || newRatio > 1.0 then
      Err(IllegalArgument(newRatio))
    else if animate then
      Ok(Step(Animate(c, newRatio), []))
    else
      Ok(Apply(c, newRatio))
  }

  /** Removes the animator at index `i`. */
  function Without(anims: seq<Animation>, i: nat): (r: seq<Animation>)
    requires i < |anims|
    ensures |r| == |anims| - 1
    ensures forall j :: 0 <= j < |r| ==> r[j] == anims[if j < i then j else j + 1]
  {
    anims[..i] + anims[i + 1..]
  }

  /** The value an animator reports at interpolated fraction `f`, as the float
      evaluator computes it. */
  function FrameValue(a: Animation, f: real): real {
    a.from + Scale(f, a.to - a.from)
  }

  /** One frame of animator `i` at interpolated fraction `f` (the easing curve
      is the framework's): the reported value is applied and notified only if it
      differs from the ratio, and the final frame (`f == 1`) ends the animator. */
  function AnimationFrame(c: Canvas, i: nat, f: real): (s: Step)
    requires i < |c.animations| && InUnit(f)
    ensures s.canvas.dragging == c.dragging
    ensures f == 0.0 ==> s.canvas.ratio == c.animations[i].from
    ensures f == 1.0 ==> s.canvas.ratio == c.animations[i].to
    ensures var a := c.animations[i];
      (a.from <= s.canvas.ratio <= a.to) || (a.to <= s.canvas.ratio <= a.from)
    ensures f == 1.0 ==> |s.canvas.animations| == |c.animations| - 1
    ensures f == 1.0 ==> s.canvas.animations == Without(c.animations, i)
    ensures f != 1.0 ==> s.canvas.animations == c.animations
    ensures s.events == [] <==> s.canvas.ratio == c.ratio
    ensures s.events != [] ==> s.events == [RatioChanged(s.canvas.ratio)]
    ensures Valid(c) ==> Valid(s.canvas) && EventsInRange(s.events)
  {
    var a := c.animations[i];
    var v := FrameValue(a, f);
    var applied := Apply(c, v);
    ScaleBounds(f, a.to - a.from);
    assert Valid(c) ==> InUnit(v) by {
      if Valid(c) {
        LerpInUnit(a.from, a.to, f);
      }
    }
    if f == 1.0 then
      Step(applied.canvas.(animations := Without(c.animations, i)), applied.events)
    else
      applied
  }

  /** Frames advance toward the animator's target: a later fraction reports a value
      no further from `to` than an earlier one, whichever way the animator runs. */
  lemma FrameMonotone(c: Canvas, i: nat, f: real, g: real)
    requires i < |c.animations| && InUnit(f) && InUnit(g) && f <= g
    ensures var a := c.animations[i];
      var vf, vg := AnimationFrame(c, i, f).canvas.ratio, AnimationFrame(c, i, g).canvas.ratio;
      (a.from <= a.to ==> vf <= vg) && (a.to <= a.from ==> vg <= vf)
  {
    var a := c.animations[i];
    ScaleMonotone(f, g, a.to - a.from);
  }

  /** `onDownEvent`: dragging starts exactly when the touch point, truncated to
      integer pixels, lies inside the thumb; only then is a touch-down emitted. */
  function OnDown(c: Canvas, l: Layout, x: real, y: real): (s: Step)
    ensures s.canvas.dragging <==> InHoverArea(l, c.ratio, Trunc(x), Trunc(y))
    ensures s.canvas.ratio == c.ratio && s.canvas.animations == c.animations
    ensures s.events == (if s.canvas.dragging then [TouchDown] else [])
  {
    var inside := InHoverArea(l, c.ratio, Trunc(x), Trunc(y));
    Step(c.(dragging := inside), if inside then [TouchDown] else [])
  }

  /** The ratio a scroll of `distanceX` pixels aims at: a drag across half the
      view width covers the whole track, clamped to [0, 1]. `distanceX` is the
      previous minus the current x, so moving right is negative. */
  function ScrollTarget(c: Canvas, l: Layout, distanceX: real): (r: real)
    requires l.width > 0
    ensures InUnit(r)
    ensures InUnit(Unclamped(c, l, distanceX)) ==> r == Unclamped(c, l, distanceX)
    ensures Unclamped(c, l, distanceX) < 0.0 ==> r == 0.0
    ensures Unclamped(c, l, distanceX) > 1.0 ==> r == 1.0
    ensures InUnit(c.ratio) && distanceX <= 0.0 ==> c.ratio <= r
    ensures InUnit(c.ratio) && distanceX >= 0.0 ==> r <= c.ratio
  {
    var ratioDiff := (distanceX * -1.0) / (l.width as real / 2.0);
    assert ratioDiff + c.ratio == Unclamped(c, l, distanceX);
    ClampUnit(ratioDiff + c.ratio)
  }

  /** Where a scroll would put the ratio before clamping: each pixel moves it by
      two view widths' worth, against the sign of `distanceX`. */
  function Unclamped(c: Canvas, l: Layout, distanceX: real): real
    requires l.width > 0
  {
    c.ratio - 2.0 * distanceX / l.width as real
  }

  /** `onScrollEvent`: a no-op unless dragging; otherwise an immediate `setRatio`
      to the clamped target, so the ratio follows the finger's direction. */
  function OnScroll(c: Canvas, l: Layout, distanceX: real): (s: Step)
    requires l.width > 0
    ensures !c.dragging ==> s == Step(c, [])
    ensures c.dragging ==> s.canvas.ratio == ScrollTarget(c, l, distanceX)
    ensures s.canvas.dragging == c.dragging && s.canvas.animations == c.animations
    ensures c.dragging ==> InUnit(s.canvas.ratio)
    ensures InUnit(c.ratio) && distanceX <= 0.0 ==> c.ratio <= s.canvas.ratio
    ensures InUnit(c.ratio) && distanceX >= 0.0 ==> s.canvas.ratio <= c.ratio
    ensures s.events == [] <==> s.canvas.ratio == c.ratio
    ensures s.events != [] ==> s.events == [RatioChanged(s.canvas.ratio)]
    ensures Valid(c) ==> Valid(s.canvas) && EventsInRange(s.events)
  {
    if c.dragging then Apply(c, ScrollTarget(c, l, distanceX)) else Step(c, [])
  }

  /** The endpoint a release at `x` snaps to: the release ratio is `x` over the
      full view width, clamped to [0, 1], then snapped at one half. */
  function ReleaseTarget(l: Layout, x: real): (e: real)
    requires l.width > 0
    ensures e == 0.0 || e == 1.0
    ensures e == 0.0 <==> x < l.width as real / 2.0
  {
    var w := l.width as real;
    var release := ClampUnit(x / w);
    assert x < w / 2.0 <==> x / w < 0.5;
    Snap(release)
  }

  /** `onUp`: animates to the snapped endpoint, ends a drag (emitting touch-up only
      if one was active), then emits exactly one finish event naming that endpoint. */
  function OnUp(c: Canvas, l: Layout, x: real): (s: Step)
    requires l.width > 0
    ensures !s.canvas.dragging && s.canvas.ratio == c.ratio
    ensures s.canvas == Animate(c.(dragging := false), ReleaseTarget(l, x))
    ensures |s.events| == (if c.dragging then 2 else 1)
    ensures s.events[0] == TouchUp <==> c.dragging
    ensures s.events[|s.events| - 1] == (if x < l.width as real / 2.0 then FinishLeft else FinishRight)
    ensures forall i :: 0 <= i < |s.events| - 1 ==> !IsFinish(s.events[i])
    ensures Valid(c) ==> Valid(s.canvas) && EventsInRange(s.events)
  {
    var newRatio := ReleaseTarget(l, x);
    var touch := if c.dragging then [TouchUp] else [];
    // The snapped value is always 0.0 or 1.0, so one of the two finish events fires.
    var finish := if newRatio == 0.0 then [FinishLeft] else [FinishRight];
    Step(Animate(c, newRatio).(dragging := false), touch + finish)
  }

  /** `onCancel`: snaps the current ratio at one half, ends a drag (touch-up only if
      one was active) and never emits a finish event. */
  function OnCancel(c: Canvas): (s: Step)
    ensures !s.canvas.dragging && s.canvas.ratio == c.ratio
    ensures s.canvas == Animate(c.(dragging := false), if c.ratio < 0.5 then 0.0 else 1.0)
    ensures s.events == [] <==> !c.dragging
    ensures |s.events| <= 1
    ensures forall i :: 0 <= i < |s.events| ==> s.events[i] == TouchUp
    ensures Valid(c) ==> Valid(s.canvas) && EventsInRange(s.events)
  {
    var newRatio := Snap(c.ratio);
    Step(Animate(c, newRatio).(dragging := false), if c.dragging then [TouchUp] else [])
  }

  /** The thumb's colour: every ARGB channel interpolated between the two end
      colours at the current ratio, truncated. */
  function HoverColor(colors: HoverColors, c: Canvas): (col: Argb)
    requires InUnit(c.ratio)
    ensures Between(col.alpha, colors.leftMost.alpha, colors.rightMost.alpha)
    ensures Between(col.red, colors.leftMost.red, colors.rightMost.red)
    ensures Between(col.green, colors.leftMost.green, colors.rightMost.green)
    ensures Between(col.blue, colors.leftMost.blue, colors.rightMost.blue)
    ensures c.ratio == 0.0 ==> col == colors.leftMost
    ensures c.ratio == 1.0 ==> col == colors.rightMost
  {
    Mix(colors.leftMost, colors.rightMost, c.ratio)
  }

  /** Setting the same ratio twice emits one change at most: the second call is a
      no-op, and the pair emits exactly one change iff the value was new. */
  lemma SetRatioTwiceEmitsOnce(c: Canvas, r: real)
    requires InUnit(r)
    ensures var first := SetRatio(c, r, false).value;
      var second := SetRatio(first.canvas, r, false);
      second == Ok(Step(first.canvas, [])) &&
      |first.events + second.value.events| == (if r == c.ratio then 0 else 1)
  {
  }

  /** Scrolling while dragging goes through `setRatio` and never reaches its range error. */
  lemma ScrollNeverRejected(c: Canvas, l: Layout, distanceX: real)
    requires l.width > 0 && c.dragging
    ensures SetRatio(c, ScrollTarget(c, l, distanceX), false) == Ok(OnScroll(c, l, distanceX))
  {
  }

  /** Inside the track a scroll moves the ratio by exactly `-2 * distanceX / width`. */
  lemma ScrollMovesExactly(c: Canvas, l: Layout, distanceX: real)
    requires l.width > 0 && c.dragging
    requires InUnit(c.ratio - 2.0 * distanceX / l.width as real)
    ensures OnScroll(c, l, distanceX).canvas.ratio == c.ratio - 2.0 * distanceX / l.width as real
  {
  }

  /** Two scroll steps that stay inside the track move the ratio as far as one
      step covering both distances. */
  lemma ScrollsCompose(c: Canvas, l: Layout, d1: real, d2: real)
    requires l.width > 0 && c.dragging
    requires InUnit(c.ratio - 2.0 * d1 / l.width as real)
    requires InUnit(c.ratio - 2.0 * d1 / l.width as real - 2.0 * d2 / l.width as real)
    ensures OnScroll(OnScroll(c, l, d1).canvas, l, d2).canvas.ratio == OnScroll(c, l, d1 + d2).canvas.ratio
  {
    var w := l.width as real;
    assert 2.0 * (d1 + d2) / w == 2.0 * d1 / w + 2.0 * d2 / w;
  }

  /** A drag that starts at ratio 0 and moves 50 pixels right on a 200-pixel-wide
      view reaches ratio one half. */
  lemma ScrollHalfWay(l: Layout)
    requires l.width == 200
    ensures OnScroll(Canvas(0.0, true, []), l, -50.0).canvas.ratio == 0.5
  {
  }

  /** The release target ignores the current ratio and drag state: two canvases
      released at the same point animate to the same endpoint and emit the same finish event. */
  lemma OnUpIgnoresState(c1: Canvas, c2: Canvas, l: Layout, x: real)
    requires l.width > 0
    ensures var s1, s2 := OnUp(c1, l, x), OnUp(c2, l, x);
      s1.canvas.animations[|c1.animations|].to == s2.canvas.animations[|c2.animations|].to &&
      s1.events[|s1.events| - 1] == s2.events[|s2.events| - 1]
  {
  }

  /** A cancel at 0.3 ends at the left end and one at 0.7 at the right end, once
      the animator it starts reaches its final frame. */
  lemma CancelSnaps(dragging: bool)
    ensures var s := OnCancel(Canvas(0.3, dragging, []));
      AnimationFrame(s.canvas, 0, 1.0).canvas.ratio == 0.0
    ensures var s := OnCancel(Canvas(0.7, dragging, []));
      AnimationFrame(s.canvas, 0, 1.0).canvas.ratio == 1.0
  {
  }

  /** The default blue-to-red thumb at ratio one half is (255, 127, 0, 127). */
  lemma HoverColorMidpoint(dragging: bool)
    ensures HoverColor(DefaultHoverColors, Canvas(0.5, dragging, [])) == Argb(255, 127, 0, 127)
  {
  }
}

=== FILE: numeric.dfy ===
/** Numeric conventions of the switcher: Kotlin's conversions and operators
    written out over Dafny's unbounded `int` and exact `real`. */
module Numeric {

  /** A ratio is a position of the thumb on the track: 0 is fully left, 1 fully right. */
  predicate InUnit(r: real) {
    0.0 <= r <= 1.0
  }

  /** Kotlin's `Double.toInt()`: rounds toward zero (not toward minus infinity). */
  function Trunc(x: real): (n: int)
    ensures x >= 0.0 ==> n as real <= x < n as real + 1.0
    ensures x < 0.0 ==> n as real - 1.0 < x <= n as real
    ensures (if n < 0 then -n else n) as real <= (if x < 0.0 then -x else x)
  {
    if x >= 0.0 then x.Floor else -((-x).Floor)
  }

  /** Kotlin's `Int / Int` for a positive divisor: the quotient rounds toward zero,
      so the remainder takes the sign of the dividend. */
  function KDiv(a: int, b: int): (q: int)
    requires b > 0
    ensures a >= 0 ==> 0 <= a - q * b < b
    ensures a < 0 ==> -b < a - q * b <= 0
  {
    if a >= 0 then a / b else -((-a) / b)
  }

  /** Kotlin's `coerceIn(0.0, 1.0)`: below the range gives 0, above gives 1. */
  function ClampUnit(x: real): (y: real)
    ensures InUnit(y)
    ensures InUnit(x) ==> y == x
    ensures x < 0.0 ==> y == 0.0
    ensures x > 1.0 ==> y == 1.0
  {
    if x < 0.0 then 0.0 else if x > 1.0 then 1.0 else x
  }

  /** The snap rule shared by release and cancel: strictly below one half goes
      to the left end, everything else (one half included) to the right end. */
  function Snap(r: real): (e: real)
    ensures e == 0.0 || e == 1.0
    ensures e == 0.0 <==> r < 0.5
  {
    if r < 0.5 then 0.0 else 1.0
  }

  /** On the integers, truncation is the identity. */
  lemma TruncOfInt(n: int)
    ensures Trunc(n as real) == n
  {
  }

  /** Truncation is monotone: it never reorders two values. */
  lemma TruncMonotone(x: real, y: real)
    requires x <= y
    ensures Trunc(x) <= Trunc(y)
  {
    if x >= 0.0 {
      assert x.Floor as real <= x <= y;
    } else if y < 0.0 {
      assert (-y) <= (-x);
      assert (-y).Floor <= (-x).Floor;
    }
  }

  // Products of two variables are kept behind `Scale` and reasoned about only
  // through the step-by-step lemmas below.

  /** Multiplying both sides by a non-negative factor keeps their order. */
  lemma MulLe(k: real, a: real, b: real)
    requires k >= 0.0 && a <= b
    ensures a * k <= b * k
  {
    assert b * k - a * k == (b - a) * k;
  }

  /** Multiplying both sides by a non-positive factor reverses their order. */
  lemma MulLeNeg(k: real, a: real, b: real)
    requires k <= 0.0 && a <= b
    ensures b * k <= a * k
  {
    assert a * k - b * k == (b - a) * (-k);
  }

  lemma MulUnit(d: real)
    ensures 0.0 * d == 0.0 && 1.0 * d == d
  {
  }

  /** The fraction `f` of `d`, as the source writes `d * ratio`. */
  function Scale(f: real, d: real): real {
    f * d
  }

  /** A fraction in [0, 1] of `d` lies between zero and `d`, and is exact at the ends. */
  lemma ScaleBounds(f: real, d: real)
    requires InUnit(f)
    ensures d >= 0.0 ==> 0.0 <= Scale(f, d) <= d
    ensures d < 0.0 ==> d <= Scale(f, d) <= 0.0
    ensures f == 0.0 ==> Scale(f, d) == 0.0
    ensures f == 1.0 ==> Scale(f, d) == d
  {
    MulUnit(d);
    assert Scale(f, d) == f * d;
    if d >= 0.0 {
      MulLe(d, 0.0, f);
      MulLe(d, f, 1.0);
      assert 0.0 * d <= f * d <= 1.0 * d;
      assert 0.0 <= f * d <= d;
    } else {
      MulLeNeg(d, 0.0, f);
      MulLeNeg(d, f, 1.0);
      assert 1.0 * d <= f * d <= 0.0 * d;
      assert d <= f * d <= 0.0;
    }
  }

  /** A larger fraction takes more of a non-negative `d` and less of a negative one. */
  lemma ScaleMonotone(s: real, t: real, d: real)
    requires s <= t
    ensures d >= 0.0 ==> Scale(s, d) <= Scale(t, d)
    ensures d < 0.0 ==> Scale(t, d) <= Scale(s, d)
  {
    assert Scale(s, d) == s * d && Scale(t, d) == t * d;
    if d >= 0.0 {
      MulLe(d, s, t);
      assert s * d <= t * d;
    } else {
      MulLeNeg(d, s, t);
      assert t * d <= s * d;
    }
  }

  /** Interpolating between two ratios gives a ratio. */
  lemma LerpInUnit(from: real, to: real, f: real)
    requires InUnit(from) && InUnit(to) && InUnit(f)
    ensures InUnit(from + Scale(f, to - from))
  {
    ScaleBounds(f, to - from);
  }
}

=== FILE: switcher.dfy ===
/** The switcher container: two slots (icon and label) whose tint follows the
    canvas ratio, the forwarding of the canvas's notifications to the single
    selection listener, and the programmatic switch to either side. */
module Switcher {
  import opened Numeric
  import opened Colors
  import opened Failures
  import opened HoverCanvas
  import opened Geometry
  import opened Gestures

  /** The tint of an enabled slot and of a disabled one. */
  datatype TintConfig = TintConfig(enable: Argb, disable: Argb)

  /** `Color.WHITE` and `Color.BLACK`, the defaults of the two tints. */
  const DefaultTints: TintConfig := TintConfig(Argb(255, 255, 255, 255), Argb(255, 0, 0, 0))

  /** The tints currently applied to the left and the right slot. */
  datatype SlotTints = SlotTints(left: Argb, right: Argb)

  /** The selection listener's callbacks (`onLeftItemSelected`,
      `onRightItemSelected`, `onStartSwitchUserControl`, `onFinishSwitchUserControl`). */
  datatype ListenerCall = LeftItemSelected | RightItemSelected | StartUserControl | FinishUserControl

  /** What the container does with one canvas notification. */
  datatype Reaction = Recolor(tints: SlotTints) | Notify(call: ListenerCall)

  /** `tintColorOfEnableRatio`: an opaque colour that is the enabled tint at enable
      ratio 1 and the disabled tint at 0, each RGB channel in between otherwise. */
  function TintColorOfEnableRatio(cfg: TintConfig, ratio: real): (res: Result<Argb>)
    ensures res.Err? <==> !InUnit(ratio)
    ensures res.Err? ==> res.failure == IllegalArgument(ratio)
    ensures res.Ok? ==> res.value.alpha == 255
    ensures res.Ok? ==> Between(res.value.red, cfg.enable.red, cfg.disable.red)
    ensures res.Ok? ==> Between(res.value.green, cfg.enable.green, cfg.disable.green)
    ensures res.Ok? ==> Between(res.value.blue, cfg.enable.blue, cfg.disable.blue)
    ensures ratio == 1.0 ==> res == Ok(Opaque(cfg.enable))
    ensures ratio == 0.0 ==> res == Ok(Opaque(cfg.disable))
  {
    if ratio < 0.0 || ratio > 1.0 then
      Err(IllegalArgument(ratio))
    else
      var t := 1.0 - ratio;
      Ok(Argb(255,
              LerpChannel(cfg.enable.red, cfg.disable.red, t),
              LerpChannel(cfg.enable.green, cfg.disable.green, t),
              LerpChannel(cfg.enable.blue, cfg.disable.blue, t)))
  }

  /** `leftItemTintColor`: the left slot is enabled at ratio 0 and disabled at 1. */
  function LeftItemTintColor(cfg: TintConfig, ratio: real): (res: Result<Argb>)
    ensures res.Err? <==> !InUnit(ratio)
    ensures res.Err? ==> res.failure == IllegalArgument(ratio)
    ensures ratio == 0.0 ==> res == Ok(Opaque(cfg.enable))
    ensures ratio == 1.0 ==> res == Ok(Opaque(cfg.disable))
  {
    if ratio < 0.0 || ratio > 1.0 then Err(IllegalArgument(ratio))
    else TintColorOfEnableRatio(cfg, 1.0 - ratio)
  }

  /** `rightItemTintColor`: the right slot is disabled at ratio 0 and enabled at 1. */
  function RightItemTintColor(cfg: TintConfig, ratio: real): (res: Result<Argb>)
    ensures res.Err? <==> !InUnit(ratio)
    ensures res.Err? ==> res.failure == IllegalArgument(ratio)
    ensures ratio == 0.0 ==> res == Ok(Opaque(cfg.disable))
    ensures ratio == 1.0 ==> res == Ok(Opaque(cfg.enable))
  {
    if ratio < 0.0 || ratio > 1.0 then Err(IllegalArgument(ratio))
    else TintColorOfEnableRatio(cfg, ratio)
  }

  /** The left tint moves from the enabled toward the disabled tint by the ratio,
      the right tint by one minus the ratio, channel by channel. */
  lemma TintsInterpolate(cfg: TintConfig, ratio: real)
    requires InUnit(ratio)
    ensures LeftItemTintColor(cfg, ratio) == Ok(Argb(255,
      LerpChannel(cfg.enable.red, cfg.disable.red, ratio),
      LerpChannel(cfg.enable.green, cfg.disable.green, ratio),
      LerpChannel(cfg.enable.blue, cfg.disable.blue, ratio)))
    ensures RightItemTintColor(cfg, ratio) == Ok(Argb(255,
      LerpChannel(cfg.enable.red, cfg.disable.red, 1.0 - ratio),
      LerpChannel(cfg.enable.green, cfg.disable.green, 1.0 - ratio),
      LerpChannel(cfg.enable.blue, cfg.disable.blue, 1.0 - ratio)))
  {
    assert 1.0 - (1.0 - ratio) == ratio;
  }

  /** The two slots mirror each other: the left tint at `r` is the right tint at `1 - r`. */
  lemma TintsMirror(cfg: TintConfig, ratio: real)
    requires InUnit(ratio)
    ensures LeftItemTintColor(cfg, ratio) == RightItemTintColor(cfg, 1.0 - ratio)
    ensures LeftItemTintColor(cfg, ratio).Ok?
  {
  }

  /** `onRatioChanged` of the container's ratio listener: an out-of-range ratio is
      rejected before either slot is recoloured; otherwise both slots are recoloured. */
  function OnRatioChanged(cfg: TintConfig, ratio: real): (res: Result<SlotTints>)
    ensures res.Err? <==> !InUnit(ratio)
    ensures res.Err? ==> res.failure == IllegalState(ratio)
    ensures res.Ok? ==> Ok(res.value.left) == LeftItemTintColor(cfg, ratio)
    ensures res.Ok? ==> Ok(res.value.right) == RightItemTintColor(cfg, ratio)
  {
    if ratio < 0.0 || ratio > 1.0 then
      Err(IllegalState(ratio))
    else
      Ok(SlotTints(LeftItemTintColor(cfg, ratio).value, RightItemTintColor(cfg, ratio).value))
  }

  /** The colouring done at construction, at ratio 0: left enabled, right disabled. */
  function InitialTints(cfg: TintConfig): (t: SlotTints)
    ensures t.left == Opaque(cfg.enable) && t.right == Opaque(cfg.disable)
  {
    SlotTints(LeftItemTintColor(cfg, 0.0).value, RightItemTintColor(cfg, 0.0).value)
  }

  /** The colouring done at construction agrees with what the ratio listener
      computes for a fresh canvas, which starts valid at ratio 0. */
  lemma InitialTintsAgree(cfg: TintConfig)
    ensures Valid(Initial)
    ensures OnRatioChanged(cfg, Initial.ratio) == Ok(InitialTints(cfg))
  {
  }

  /** With the default tints the left slot starts white and the right slot black. */
  lemma DefaultInitialTints()
    ensures InitialTints(DefaultTints) == SlotTints(Argb(255, 255, 255, 255), Argb(255, 0, 0, 0))
  {
  }

  /** The canvas notification a listener callback answers. */
  function Source(call: ListenerCall): (e: Event)
    ensures !e.RatioChanged?
  {
    match call
    case StartUserControl => TouchDown
    case FinishUserControl => TouchUp
    case LeftItemSelected => FinishLeft
    case RightItemSelected => FinishRight
  }

  /** The container's handling of one canvas notification: a ratio change recolours
      (or is rejected), and each of the other four is forwarded to its own callback. */
  function Dispatch(cfg: TintConfig, e: Event): (res: Result<Reaction>)
    ensures res.Err? <==> e.RatioChanged? && !InUnit(e.ratio)
    ensures res.Err? ==> res.failure == IllegalState(e.ratio)
    ensures e.RatioChanged? && res.Ok? ==> res.value == Recolor(OnRatioChanged(cfg, e.ratio).value)
    ensures !e.RatioChanged? ==> res.Ok? && res.value.Notify? && Source(res.value.call) == e
  {
    match e
    case RatioChanged(r) =>
      (match OnRatioChanged(cfg, r)
       case Ok(tints) => Ok(Recolor(tints))
       case Err(f) => Err(f))
    case TouchDown => Ok(Notify(StartUserControl))
    case TouchUp => Ok(Notify(FinishUserControl))
    case FinishLeft => Ok(Notify(LeftItemSelected))
    case FinishRight => Ok(Notify(RightItemSelected))
  }

  /** Forwarding is one-to-one: every callback is reached from exactly one kind of
      canvas notification, and two notifications reaching the same callback are equal. */
  lemma ForwardingOneToOne(cfg: TintConfig, call: ListenerCall, e1: Event, e2: Event)
    ensures Dispatch(cfg, Source(call)) == Ok(Notify(call))
    ensures !e1.RatioChanged? && !e2.RatioChanged? && Dispatch(cfg, e1) == Dispatch(cfg, e2) ==> e1 == e2
  {
  }

  /** The container's reactions to a list of notifications, in order; the first
      rejected ratio aborts the rest, as the exception would. */
  function Listen(cfg: TintConfig, events: seq<Event>): (res: Result<seq<Reaction>>)
    ensures res.Ok? <==> EventsInRange(events)
    ensures res.Err? ==> res.failure.IllegalState? && !InUnit(res.failure.value)
    ensures res.Ok? ==> |res.value| == |events|
    ensures res.Ok? ==> forall i :: 0 <= i < |events| ==> Dispatch(cfg, events[i]) == Ok(res.value[i])
    decreases |events|
  {
    if |events| == 0 then
      Ok([])
    else
      match Dispatch(cfg, events[0])
      case Err(f) => Err(f)
      case Ok(r) =>
        match Listen(cfg, events[1..])
        case Err(f) => Err(f)
        case Ok(rs) => Ok([r] + rs)
  }

  /** Whatever touch input the canvas receives, the container never hears a
      ratio it must reject. */
  lemma CanvasTracesAccepted(cfg: TintConfig, c: Canvas, l: Layout, inputs: seq<Input>)
    requires Valid(c) && l.width > 0
    ensures Listen(cfg, Run(c, l, inputs).events).Ok?
  {
  }

  /** `switchToLeftItem`: an animated `setRatio(0.0)`, which is never rejected. */
  function SwitchToLeftItem(c: Canvas): (res: Result<Step>)
    ensures res.Ok? && res.value.events == []
    ensures res.value.canvas.ratio == c.ratio && res.value.canvas.dragging == c.dragging
    ensures res.value.canvas.animations == c.animations + [Animation(c.ratio, 0.0)]
  {
    SetRatio(c, 0.0, true)
  }

  /** `switchToRightItem`: an animated `setRatio(1.0)`, which is never rejected. */
  function SwitchToRightItem(c: Canvas): (res: Result<Step>)
    ensures res.Ok? && res.value.events == []
    ensures res.value.canvas.ratio == c.ratio && res.value.canvas.dragging == c.dragging
    ensures res.value.canvas.animations == c.animations + [Animation(c.ratio, 1.0)]
  {
    SetRatio(c, 1.0, true)
  }

  /** Switching left and then right: the animator started last targets the right
      end, and its final frame leaves the ratio at exactly 1. */
  lemma SwitchLeftThenRight(c: Canvas)
    ensures var s := SwitchToRightItem(SwitchToLeftItem(c).value.canvas).value.canvas;
      var last := |s.animations| - 1;
      s.animations[last].to == 1.0 && AnimationFrame(s, last, 1.0).canvas.ratio == 1.0
  {
  }
}
